=== FILE: README.md ===
# Creatorverse: a Dafny model of the page logic

Creatorverse is a small React front end for a remote `creators` table. Each
row has a `name`, a `url`, a `description` and an optional `imageURL`. The
application has four pages and one card component:

- The home list (`ShowCreators`).
- The detail page (`ViewCreator`).
- The create form (`AddCreator`).
- The edit form (`EditCreator`).
- The card (`CreatorCard`), one per creator on the list. It guesses a social platform from the creator's URL and carries a delete-confirmation modal.

This project models that logic as pure functions over immutable state, with
every backend call abstracted to an outcome: `Ok(data)`, `Err` (the call
returned an `error`) or `Throw` (the awaited promise rejected).

Layout, one module per file:

- `outcomes.dfy` (`Outcomes`): `Option` and the three-way `Outcome` of a backend call.
- `text.dfy` (`Text`): case-sensitive substring search, as in `String.includes`. It is proved equal to an index-based reference definition.
- `records.dfy` (`Records`): the row, the four-field draft, `handleChange` as `With`, and the required-field constraint.
- `commands.dfy` (`Commands`): the commands a page issues. These are backend requests, navigation, `alert`, `console.error` and reload. The module also holds route paths, the shared try/catch settlement `Settle` and the event fold `Run`.
- `platform.dfy` (`Platform`): `getSocialPlatform` and `getSocialIcon`.
- `creator_card.dfy` (`CreatorCard`): the card, its modal state machine and its render decisions.
- `confirmed_delete.dfy` (`ConfirmedDelete`): the `window.confirm`-gated delete. The detail and edit pages share this code.
- `add_creator.dfy`, `edit_creator.dfy`, `view_creator.dfy`, `show_creators.dfy`: one module per page.

Each page module has the same parts:

- A state datatype holding the page's React state plus its route id (the card: its `creator` prop).
- `Mount`: the initial state and the fetch it starts.
- Handler functions. An `async` handler is split into its part before the `await` (`Begin…`) and its part after it (`Finish…`, `Loaded`).
- `Render`: the decisions the JSX makes.
- `Step`: feeds one event to a handler. Events are clicks, typing and backend completions. The list page's only event of its own is its fetch settling; clicks on its cards go to `CreatorCard.Step`.
  - A click or a keystroke reaches its handler only when its control is rendered and enabled.
  - A submit also needs the browser's required-field check to pass.
  - A completion arrives only while the page's own in-flight flag is set (`isDeleting`, `loading`, `saving`). Calls the page does not track can settle at any time. These are the detail page's fetch and the edit and detail pages' deletes.

`Commands.Run` folds `Step` over any sequence of events. The invariants below are proved over all such sequences.

Facts about the code that shape the model:

- The card's confirm and cancel buttons are disabled while a delete is in flight. The delete buttons on the detail and edit pages have no such guard, so a second confirmed click issues a second delete (`EditCreator.DeleteHasNoInFlightGuard`).
- The detail page renders "Loading..." whenever `creator` is null. A fetch that returns an error or no row leaves it null, so the page shows "Loading..." for good and no error message.
- The list page keeps its previous list when the fetch returns an error. On first load that list is empty.
- None of the three fetches is inside `try`. A thrown fetch ends the effect before `setLoading(false)`, so the list and edit pages stay in their loading state.
- Nothing in the card sets `showDeleteModal` to true, so its delete modal never opens and its delete handler is unreachable. The model proves this.
- The forms keep no record of unsaved changes.

Matching uses plain substrings over the whole URL text, so `https://netflix.com` contains `x.com` and is classified as Twitter (`Platform.NetflixIsTwitter`).

## Model

| member | source | states |
|---|---|---|
| Text.IncludesIffOccurs | src/components/CreatorCard.jsx:37-40 | the `includes` test the classifier uses holds exactly when the pattern occurs at some index of the URL |
| Platform.SocialPlatform | src/components/CreatorCard.jsx:36-42 | the platform returned has one of its own markers in the URL (unless it is `Website`), and no platform tried before it has any marker |
| Platform.ClassifiedIffFirstMarked | src/components/CreatorCard.jsx:36-42 | a URL is classified as `p` if and only if `p` is the first platform in test order that has a marker in the URL, with `Website` as the fallback |
| Platform.WebsiteIffUnmarked | src/components/CreatorCard.jsx:36-42 | the result is `Website` exactly when none of the six markers occurs |
| Platform.YouTubeMarkerWins | src/components/CreatorCard.jsx:37 | any URL containing `youtube.com` or `youtu.be` is YouTube, whatever text and other markers surround it |
| Platform.TwitterIff | src/components/CreatorCard.jsx:38 | the result is Twitter if and only if there is no YouTube marker and the URL contains `twitter.com` or `x.com` |
| Platform.LaterPlatformsNeedEarlierUnmarked | src/components/CreatorCard.jsx:39-40 | Instagram only without YouTube or Twitter markers; TikTok only without any of the three earlier platforms' markers |
| Platform.TwitterWithoutY | src/components/CreatorCard.jsx:37-38 | a URL with no `y` and an `x.com` anywhere in it is Twitter |
| Platform.NetflixIsTwitter | src/components/CreatorCard.jsx:38 | `https://netflix.com` is classified as Twitter because the test is a plain substring match |
| Platform.ExtendingNeverDemotes | src/components/CreatorCard.jsx:36-42 | adding text around a URL can only move its platform earlier in test order |
| Platform.SocialIcon | src/components/CreatorCard.jsx:44-52 | total on every string; the link icon is returned exactly for strings other than the four platform names |
| Platform.NamedIconsDistinct | src/components/CreatorCard.jsx:44-52 | each of the four platform names has an icon that no other string maps to |
| Platform.CardIconIsLinkIffWebsite | src/components/CreatorCard.jsx:54-55 | the card's icon is the link icon if and only if the URL's platform is `Website` |
| CreatorCard.Mount | src/components/CreatorCard.jsx:8-9 | a card starts with the modal hidden and no delete in flight |
| CreatorCard.BeginDelete | src/components/CreatorCard.jsx:11-17 | `handleDelete` raises `isDeleting` and issues one delete for the card's own id |
| CreatorCard.FinishDelete | src/components/CreatorCard.jsx:19-32 | whatever the outcome, `isDeleting` is cleared and the modal hidden; a reload happens exactly on success, and an error alerts without reloading |
| CreatorCard.Render | src/components/CreatorCard.jsx:54-256 | the title is the creator's name and the visit link its URL; the `Visit …` label is the label of the platform the URL classifies as, and the icon is that label's icon, the link icon exactly for `Website`; the modal shows exactly when `showDeleteModal` is set; both buttons are disabled exactly while deleting, and the confirm caption reads `DELETING...` exactly then; the image shows exactly with a non-empty `imageURL` |
| CreatorCard.Step | src/components/CreatorCard.jsx:11-256 | the info and edit buttons navigate to the card's detail and edit routes; with the modal shown and nothing in flight, cancel hides the modal and confirm starts the delete; both modal buttons do nothing while a delete is in flight or the modal is hidden; a settling delete goes through `FinishDelete` only while in flight; a backend call is issued only by the confirm button of a shown modal with no delete in flight |
| CreatorCard.QuietForever | src/components/CreatorCard.jsx:8-31 | from a card with the modal hidden and nothing in flight, no sequence of events ever shows the modal, starts a delete or calls the backend |
| CreatorCard.MountedCardNeverDeletes | src/components/CreatorCard.jsx:213-256 | every mounted card never renders the modal and never issues a delete |
| CreatorCard.ConfirmThenSettle | src/components/CreatorCard.jsx:11-32 | if the modal were shown, confirming would issue exactly one delete for the card and leave the card at rest after any outcome |
| Records.With | src/pages/AddCreator.jsx:15-21 | `handleChange` sets the named column to the value and leaves every other column as it was |
| Records.WithOwnValue | src/pages/AddCreator.jsx:15-21 | writing a column's current value back leaves the draft unchanged |
| Records.WithOverwrites | src/pages/AddCreator.jsx:15-21 | a later change to the same column overwrites an earlier one |
| Records.WithCommutes | src/pages/AddCreator.jsx:15-21 | changes to different columns commute |
| Records.SubmittableIffRequiredFilled | src/pages/AddCreator.jsx:50-93 | a draft can be submitted if and only if every column marked `required` is non-empty |
| Records.ImageUrlIsOptional | src/pages/AddCreator.jsx:85-93 | under the `required` attributes, the only submit check modelled, changing `imageURL` never changes whether the draft can be submitted |
| Records.EmptyDraftNotSubmittable | src/pages/AddCreator.jsx:6-12 | the initial empty draft stays unsubmittable after filling in any one required column with any value |
| Records.ImageOf | src/pages/ViewCreator.jsx:50 | an image is shown exactly when `imageURL` is non-empty, and it is that URL |
| Commands.DetailPathInjective | src/pages/EditCreator.jsx:58 | different ids navigate to different detail routes |
| Commands.EditPathInjective | src/pages/ViewCreator.jsx:55 | different ids link to different edit routes |
| Commands.Settle | src/pages/AddCreator.jsx:27-43 | the success action runs exactly on a clean result; a returned error logs its message and alerts; a thrown one logs `Error:` and gives the same alert |
| ConfirmedDelete.Request | src/pages/ViewCreator.jsx:22-28 | the backend delete for the route id is issued if and only if `window.confirm` answered yes |
| ConfirmedDelete.Settled | src/pages/ViewCreator.jsx:30-39 | delete success navigates home; an error alerts and does not navigate; no further backend call is made |
| AddCreator.Mount | src/pages/AddCreator.jsx:6-12 | the form starts with every column empty, no id, and `loading` false |
| AddCreator.Change | src/pages/AddCreator.jsx:15-21 | typing sets exactly the named column; the other columns and `loading` are unchanged |
| AddCreator.BeginSubmit | src/pages/AddCreator.jsx:23-30 | submit raises `loading` and inserts a one-element list holding exactly the current form |
| AddCreator.FinishSubmit | src/pages/AddCreator.jsx:32-43 | `loading` drops on every outcome and the draft is kept; home is opened exactly on success; an error alerts |
| AddCreator.Render | src/pages/AddCreator.jsx:96-98 | the submit button is enabled exactly when no insert is in flight, and reads `Adding...` exactly then |
| AddCreator.Step | src/pages/AddCreator.jsx:49-98 | typing always sets its column, even while an insert is in flight; a submit with no insert in flight and every required column filled starts the insert; otherwise a submit does nothing; an insert settling while in flight goes through `FinishSubmit` (home on success, an alert otherwise) and is otherwise ignored; no event ever gives the form an id |
| AddCreator.OnlyValidInserts | src/pages/AddCreator.jsx:28-30 | across any sequence of events, every backend call is a one-row insert without an id and with name, URL and description non-empty |
| AddCreator.DoubleSubmitIgnored | src/pages/AddCreator.jsx:96 | two submits in a row issue exactly one insert |
| AddCreator.TypingDuringInsert | src/pages/AddCreator.jsx:15-21 | the inputs are never disabled: after a submit, typing still sets its column while the insert stays in flight, and only the one insert goes out |
| AddCreator.FailureKeepsDraft | src/pages/AddCreator.jsx:32-43 | a failed or thrown insert leaves the page exactly as before the submit, draft included, alerts and does not go home |
| AddCreator.SuccessGoesHome | src/pages/AddCreator.jsx:23-43 | a submit followed by a clean insert issues the one insert, then opens the home route, and leaves `loading` down |
| EditCreator.Mount | src/pages/EditCreator.jsx:8-23 | the form starts empty with no id, `loading` true and `saving` false, and the row for the route id is fetched |
| EditCreator.FromRow | src/pages/EditCreator.jsx:26 | the seeded form is the fetched row, its id included |
| EditCreator.Loaded | src/pages/EditCreator.jsx:25-30 | a clean fetch with a row replaces the form; an error or a null row logs and keeps the form; `loading` drops in both cases; a thrown fetch changes nothing |
| EditCreator.Change | src/pages/EditCreator.jsx:36-42 | typing sets exactly the named column; the id, the other columns and both flags are unchanged |
| EditCreator.BeginSave | src/pages/EditCreator.jsx:44-52 | submit raises `saving` and sends the whole current form as the update for the route id |
| EditCreator.FinishSave | src/pages/EditCreator.jsx:54-65 | `saving` drops on every outcome and the form is kept; the detail route is opened exactly on success; an error alerts |
| EditCreator.Render | src/pages/EditCreator.jsx:89-147 | only "Loading..." is rendered while loading; afterwards the form shows the draft and its submit button is enabled exactly when not saving, reading `Saving...` while saving |
| EditCreator.Step | src/pages/EditCreator.jsx:17-155 | while loading, typing, submitting and deleting do nothing; once loaded, typing sets its column; a submit while saving or with a required column empty does nothing, and otherwise starts the update; the fetch settling while loading goes through `Loaded`, an update settling while saving through `FinishSave`, each ignored otherwise; once loaded, a delete click goes through the confirmed delete, and a settling delete through its settlement (home on success) |
| EditCreator.StaysOnRoute | src/pages/EditCreator.jsx:46-74 | across any sequence of events, a save is never in flight during the fetch, and every update or delete targets the route id |
| EditCreator.DoubleSaveIgnored | src/pages/EditCreator.jsx:146 | two submits in a row issue exactly one update, because the button is disabled while saving |
| EditCreator.DeclinedDeleteIsNoop | src/pages/EditCreator.jsx:69 | declining the confirmation changes no state and issues nothing |
| EditCreator.ConfirmedDeleteIssuesOne | src/pages/EditCreator.jsx:69-74 | accepting it issues exactly one delete for the route id and changes no state |
| EditCreator.DeleteHasNoInFlightGuard | src/pages/EditCreator.jsx:149-155 | two confirmed clicks issue two deletes, because the button is never disabled |
| EditCreator.SaveSendsLoadedRow | src/pages/EditCreator.jsx:26-52 | a fetched row saved unchanged is sent back whole, its id included, for the route id |
| EditCreator.FailedSaveKeepsForm | src/pages/EditCreator.jsx:54-65 | a failed or thrown update leaves the page exactly as before the submit, alerts and does not leave the page |
| EditCreator.SuccessfulSaveOpensDetail | src/pages/EditCreator.jsx:44-65 | a submit followed by a clean update issues the one update for the route id, then opens the route's detail page |
| EditCreator.FailedLoadShowsForm | src/pages/EditCreator.jsx:25-30 | a fetch that returns an error logs it and still ends loading: the form shows with its empty draft and an enabled Save button |
| EditCreator.ThrownLoadStaysLoading | src/pages/EditCreator.jsx:17-30 | after a thrown fetch the page stays on "Loading..." whatever the user does |
| ViewCreator.Mount | src/pages/ViewCreator.jsx:8-20 | `creator` starts null and the row for the route id is fetched |
| ViewCreator.Loaded | src/pages/ViewCreator.jsx:17 | a clean fetch stores `data`, even a null one; an error or a throw leaves the state alone |
| ViewCreator.Render | src/pages/ViewCreator.jsx:43-62 | "Loading..." exactly while `creator` is null; otherwise the edit link is the creator's edit route, the visit link is its URL, and the image shows exactly with a non-empty `imageURL` |
| ViewCreator.Step | src/pages/ViewCreator.jsx:17-41 | the delete goes out only when a creator is shown and the confirmation was accepted, and then it is the route id's delete; a settling delete changes no state; a settling fetch applies `Loaded` and issues nothing |
| ViewCreator.DeleteOutcomes | src/pages/ViewCreator.jsx:30-39 | delete success navigates home; an error alerts and leaves `creator` unchanged |
| ViewCreator.LoadingUntilFetched | src/pages/ViewCreator.jsx:8-43 | until a fetch returns a row, the page stays on "Loading..." and issues no backend call, whatever else happens |
| ViewCreator.CleanRowShows | src/pages/ViewCreator.jsx:17-55 | after a clean fetch with a row, the page shows that creator: its image if any, name, description, visit link and edit route |
| ViewCreator.NullRowStaysLoading | src/pages/ViewCreator.jsx:17 | a fetch error, or a clean fetch with no row, leaves the page loading |
| ShowCreators.Mount | src/pages/ShowCreators.jsx:7-15 | the list starts empty and loading, and every row is fetched |
| ShowCreators.Loaded | src/pages/ShowCreators.jsx:16-17 | success stores `data`, or an empty list when it is null; an error keeps the list; `loading` drops unless the fetch threw, which changes nothing |
| ShowCreators.Render | src/pages/ShowCreators.jsx:22-62 | loading message exactly while loading; empty-state message exactly when loaded with no creators; otherwise one freshly mounted card per creator, in order, keyed by its id |
| ShowCreators.Step | src/pages/ShowCreators.jsx:10-20 | the fetch, issued once on mount, takes effect through `Loaded` only while loading and issues nothing; after a returned fetch, a further completion changes nothing |
| ShowCreators.SettlesOnce | src/pages/ShowCreators.jsx:10-20 | after a returned fetch has been applied, a further completion leaves the list and the loading flag as they are |
| ShowCreators.KeysUnique | src/pages/ShowCreators.jsx:58-60 | distinct ids give distinct card keys |
| ShowCreators.ReturnedFetchRenders | src/pages/ShowCreators.jsx:16-47 | after any returned fetch the page leaves the loading state; it shows the empty state unless rows came back |
| ShowCreators.ThrownFetchStaysLoading | src/pages/ShowCreators.jsx:10-28 | a thrown fetch leaves the page on "Loading creators..." |
| ShowCreators.EmptyTableShowsEmptyState | src/pages/ShowCreators.jsx:47-55 | an empty table renders the empty-state message, not an error |

## Left out

- The backend table itself is not modelled: its storage, id assignment, `order('id')` sort, and what insert, update and delete do to it. Each call is an opaque request plus the outcome it returns. The round-trip and ordering properties that depend on the table are therefore not stated.
- `navigate`, `alert`, `console.error` and `window.location.reload` are modelled as output commands, not as behaviour. `console.error` keeps only its first argument. `window.confirm` is modelled as the boolean answer carried by the click event.
- React scheduling, asynchronous interleaving beyond one event at a time, and late writes after unmount are not modelled.
- Effects re-running when the route `id` changes are not modelled; each page keeps the id it was mounted with.
- JSX markup, styles and emoji rendering are not modelled. Only the render decisions are kept: what shows, which controls are enabled, captions, link targets, and the icon value.
- The routing table in `src/App.jsx` is not modelled. Route matching belongs to react-router, which is not part of this model.
- The list page's two hero links to `/` and `/new` are not modelled; they are static navigation.
- The browser's `type="url"` validation is not modelled; only the `required` attributes gate a submit.
- Records.ImageUrlIsOptional: holds under the `required` check only. In the browser an invalid non-empty `imageURL` can still block a submit through `type="url"`.
- A fetched row has exactly the five columns, all text. Other columns and a null `imageURL` are not modelled. Ids are modelled as their text form, as routes carry them.
- Dafny's `char` is a Unicode scalar value, while JavaScript strings are UTF-16 code units. All six markers are ASCII, so substring results agree.
- EditCreator.Step: a thrown fetch leaves `loading` true, so the model would still accept a later fetch completion, which the page never receives.
- ShowCreators.Step: likewise, after a thrown fetch `loading` stays true and the model would accept a later completion; the page issues its fetch once and never receives one.

=== FILE: add_creator.dfy ===
/**
  The create page: a four-field form whose submit inserts the draft and goes
  home. `loading` marks the insert in flight and disables the submit button;
  the inputs themselves stay editable throughout.
 */
module AddCreator {
  import opened Outcomes
  import opened Records
  import opened Commands

  datatype AddState = AddState(form: FormData, loading: bool)

  /** The page as mounted: an empty draft with no id, nothing in flight. */
  function Mount(): (s: AddState)
    ensures forall f :: Get(s.form.fields, f) == ""
    ensures s.form.id.None? && !s.loading
  {
    AddState(FormData(None, EmptyDraft), false)
  }

  /** `handleChange`: the input named `f` now holds `v`; every other column, and the flag, stay. */
  function Change(s: AddState, f: Field, v: string): (r: AddState)
    ensures Get(r.form.fields, f) == v
    ensures forall g :: g != f ==> Get(r.form.fields, g) == Get(s.form.fields, g)
    ensures r.form.id == s.form.id && r.loading == s.loading
  {
    s.(form := s.form.(fields := With(s.form.fields, f, v)))
  }

  /** `handleSubmit` up to its `await`: raise `loading` and insert a one-row list holding the draft. */
  function BeginSubmit(s: AddState): (t: Transition<AddState>)
    ensures t.state.loading && t.state.form == s.form
    ensures t.out == [Call(Insert([s.form]))]
  {
    Transition(s.(loading := true), [Call(Insert([s.form]))])
  }

  const AddErrorLog := "Error adding creator:"
  const AddAlert := "Error adding creator. Please try again."

  /**
    The rest of `handleSubmit`: `finally` drops `loading` on every outcome; the
    draft as it now stands is kept; success goes home, an error alerts.
   */
  function FinishSubmit(s: AddState, o: Ack): (t: Transition<AddState>)
    ensures !t.state.loading && t.state.form == s.form
    ensures o.Ok? <==> t.out == [Navigate(HomePath)]
    ensures !o.Ok? ==> Alert(AddAlert) in t.out && Navigate(HomePath) !in t.out
    ensures NoCalls(t.out)
  {
    Transition(s.(loading := false), Settle(o, Navigate(HomePath), AddErrorLog, AddAlert))
  }

  datatype AddView = AddView(fields: Draft, submitEnabled: bool, submitCaption: string)

  /** The form as rendered: the submit button is disabled while the insert is in flight. */
  function Render(s: AddState): (v: AddView)
    ensures v.fields == s.form.fields
    ensures v.submitEnabled <==> !s.loading
    ensures v.submitCaption == (if s.loading then "Adding..." else "Add Creator")
  {
    AddView(s.form.fields, !s.loading, if s.loading then "Adding..." else "Add Creator")
  }

  datatype Event =
    | Input(field: Field, value: string)   // typing into an input
    | Submit                               // the form's submit button
    | InsertSettled(outcome: Ack)

  /**
    One event. Typing always reaches `handleChange`. A submit reaches
    `handleSubmit` only when the button is enabled and the browser's
    required-field check passes. The insert settles only while in flight.
   */
  function Step(s: AddState, e: Event): (t: Transition<AddState>)
    ensures e.Submit? && (s.loading || !Submittable(s.form.fields)) ==> t == Transition(s, [])
    ensures e.Submit? && !s.loading && Submittable(s.form.fields) ==> t == BeginSubmit(s)
    ensures e.Input? ==> t == Transition(Change(s, e.field, e.value), [])
    ensures e.InsertSettled? && s.loading ==> t == FinishSubmit(s, e.outcome)
    ensures e.InsertSettled? && !s.loading ==> t == Transition(s, [])
    ensures t.state.form.id == s.form.id
  {
    match e
    case Input(f, v) => Transition(Change(s, f, v), [])
    case Submit =>
      if !s.loading && Submittable(s.form.fields) then BeginSubmit(s) else Ignore(s)
    case InsertSettled(o) => if s.loading then FinishSubmit(s, o) else Ignore(s)
  }

  /** Every backend call is a one-row insert of a draft without an id and with its required columns filled. */
  predicate WellFormedInserts(out: seq<Command>)
  {
    forall i :: 0 <= i < |out| && out[i].Call? ==>
      out[i].request.Insert? && |out[i].request.rows| == 1 &&
      out[i].request.rows[0].id.None? && Submittable(out[i].request.rows[0].fields)
  }

  lemma WellFormedInsertsAppend(a: seq<Command>, b: seq<Command>)
    requires WellFormedInserts(a) && WellFormedInserts(b)
    ensures WellFormedInserts(a + b)
  {
  }

  /**
    Whatever the user does, the page only ever inserts a single row, never
    supplies an id, and never sends a row with an empty name, URL or description.
   */
  lemma {:induction false} OnlyValidInserts(s: AddState, es: seq<Event>)
    requires s.form.id.None?
    ensures Run(Step, s, es).state.form.id.None?
    ensures WellFormedInserts(Run(Step, s, es).out)
    decreases |es|
  {
    if |es| > 0 {
      var first := Step(s, es[0]);
      OnlyValidInserts(first.state, es[1..]);
      assert WellFormedInserts(first.out);
      WellFormedInsertsAppend(first.out, Run(Step, first.state, es[1..]).out);
    }
  }

  /** A second submit while the first is in flight does nothing. */
  lemma DoubleSubmitIgnored(s: AddState)
    requires !s.loading && Submittable(s.form.fields)
    ensures Run(Step, s, [Submit, Submit]) == Transition(s.(loading := true), [Call(Insert([s.form]))])
  {
  }

  /** The inputs stay live while an insert is in flight: typing still sets the column, and the flag stays up. */
  lemma TypingDuringInsert(s: AddState, f: Field, v: string)
    requires !s.loading && Submittable(s.form.fields)
    ensures Get(Run(Step, s, [Submit, Input(f, v)]).state.form.fields, f) == v
    ensures Run(Step, s, [Submit, Input(f, v)]).state.loading
    ensures Run(Step, s, [Submit, Input(f, v)]).out == [Call(Insert([s.form]))]
  {
  }

  /**
    A failed insert, returned or thrown, leaves the user with exactly what
    they had typed and a live submit button.
   */
  lemma FailureKeepsDraft(s: AddState, o: Ack)
    requires !s.loading && Submittable(s.form.fields) && !o.Ok?
    ensures Run(Step, s, [Submit, InsertSettled(o)]).state == s
    ensures Alert(AddAlert) in Run(Step, s, [Submit, InsertSettled(o)]).out
    ensures Navigate(HomePath) !in Run(Step, s, [Submit, InsertSettled(o)]).out
  {
  }

  /** A clean insert issues the one insert and then opens the home route. */
  lemma SuccessGoesHome(s: AddState)
    requires !s.loading && Submittable(s.form.fields)
    ensures Run(Step, s, [Submit, InsertSettled(Ok(()))])
      == Transition(s, [Call(Insert([s.form])), Navigate(HomePath)])
  {
  }
}

=== FILE: commands.dfy ===
/**
  What a page hands to the outside world: calls into the backend table,
  navigation, `alert`, `console.error` and a full page reload. A handler is a
  pure function from the page state to a `Transition`: the next state plus the
  commands it issued, in order.
 */
module Commands {
  import opened Outcomes
  import opened Records

  /** A call into the `creators` table. */
  datatype Request =
    | ListAll                                 // select('*').order('id', ascending)
    | GetOne(id: Id)                          // select('*').eq('id', id).single()
    | Insert(rows: seq<FormData>)             // insert(rows)
    | Update(values: FormData, target: Id)    // update(values).eq('id', target)
    | Delete(target: Id)                      // delete().eq('id', target)

  datatype Command =
    | Call(request: Request)
    | Navigate(path: string)
    | Alert(message: string)
    | Log(message: string)                    // console.error, first argument
    | Reload                                  // window.location.reload()

  datatype Transition<S> = Transition(state: S, out: seq<Command>)

  /** Nothing happens: the event reached no handler. */
  function Ignore<S>(s: S): (t: Transition<S>)
    ensures t.state == s && |t.out| == 0
  {
    Transition(s, [])
  }

  const HomePath := "/"

  function DetailPath(id: Id): string
  {
    "/creators/" + id
  }

  function EditPath(id: Id): string
  {
    "/creators/" + id + "/edit"
  }

  /** Distinct records have distinct detail routes. */
  lemma DetailPathInjective(a: Id, b: Id)
    requires DetailPath(a) == DetailPath(b)
    ensures a == b
  {
    assert a == DetailPath(a)[10..];
    assert b == DetailPath(b)[10..];
  }

  /** Distinct records have distinct edit routes. */
  lemma EditPathInjective(a: Id, b: Id)
    requires EditPath(a) == EditPath(b)
    ensures a == b
  {
    var pa, pb := EditPath(a), EditPath(b);
    assert |a| == |b|;
    assert a == pa[10..10 + |a|];
    assert b == pb[10..10 + |b|];
  }

  /** The text `console.error` is given when an awaited call throws. */
  const ThrownLog := "Error:"

  /**
    The common `try { … } catch { … }` around an awaited mutation: a clean
    result runs `onSuccess`; a returned error logs `errorLog` and alerts
    `alertText`; a thrown error logs `ThrownLog` and alerts the same text.
   */
  function Settle(o: Ack, onSuccess: Command, errorLog: string, alertText: string): (r: seq<Command>)
    ensures o.Ok? <==> r == [onSuccess]
    ensures !o.Ok? ==> |r| == 2 && r[1] == Alert(alertText) && r[0].Log?
    ensures o.Err? ==> r[0] == Log(errorLog)
    ensures o.Throw? ==> r[0] == Log(ThrownLog)
  {
    match o
    case Ok(_) => [onSuccess]
    case Err => [Log(errorLog), Alert(alertText)]
    case Throw => [Log(ThrownLog), Alert(alertText)]
  }

  /** Feeds a sequence of events to a step function, collecting every command issued. */
  function Run<S, E>(step: (S, E) -> Transition<S>, s: S, es: seq<E>): (t: Transition<S>)
    ensures |es| == 0 ==> t == Transition(s, [])
    decreases |es|
  {
    if |es| == 0 then Transition(s, [])
    else
      var first := step(s, es[0]);
      var rest := Run(step, first.state, es[1..]);
      Transition(rest.state, first.out + rest.out)
  }

  /** No backend call at all among some commands. */
  predicate NoCalls(out: seq<Command>)
  {
    forall i :: 0 <= i < |out| ==> !out[i].Call?
  }
}

=== FILE: confirmed_delete.dfy ===
/**
  The `window.confirm`-gated delete shared by the detail and edit pages. The
  page's own state is never touched: the handler only talks to the backend and
  then navigates home or alerts. There is no in-flight flag, so the delete
  button stays live while a delete is pending.
 */
module ConfirmedDelete {
  import opened Outcomes
  import opened Records
  import opened Commands

  const DeleteErrorLog := "Error deleting creator:"
  const DeleteAlert := "Error deleting creator. Please try again."

  /**
    `handleDelete` up to its `await`, given what `window.confirm` answered:
    the backend delete for the route's id is issued only on a positive answer.
   */
  function Request(id: Id, confirmed: bool): (r: seq<Command>)
    ensures confirmed ==> r == [Call(Delete(id))]
    ensures !confirmed ==> |r| == 0
  {
    if confirmed then [Call(Delete(id))] else []
  }

  /** The rest of `handleDelete`: home on success, a logged error and an alert otherwise. */
  function Settled(o: Ack): (r: seq<Command>)
    ensures o.Ok? <==> r == [Navigate(HomePath)]
    ensures !o.Ok? ==> Alert(DeleteAlert) in r && Navigate(HomePath) !in r
    ensures NoCalls(r)
  {
    Settle(o, Navigate(HomePath), DeleteErrorLog, DeleteAlert)
  }
}

=== FILE: creator_card.dfy ===
/**
  One card of the home list: the creator's details, the platform icon linking
  to their URL, buttons to the detail and edit routes, and a delete
  confirmation modal driven by `showDeleteModal` and `isDeleting`.

  Nothing on the card ever sets `showDeleteModal` to true, so the modal, and
  with it the only button wired to `handleDelete`, is never rendered.
 */
module CreatorCard {
  import opened Outcomes
  import opened Records
  import opened Commands
  import Platform
  import opened ConfirmedDelete

  datatype Card = Card(creator: Creator, showDeleteModal: bool, isDeleting: bool)

  /** A freshly mounted card: modal hidden, no delete in flight. */
  function Mount(c: Creator): (card: Card)
    ensures card.creator == c && !card.showDeleteModal && !card.isDeleting
  {
    Card(c, false, false)
  }

  /** `handleDelete` up to its `await`: mark the delete in flight and issue it for this card's id. */
  function BeginDelete(card: Card): (t: Transition<Card>)
    ensures t.state == card.(isDeleting := true)
    ensures t.out == [Call(Delete(card.creator.id))]
  {
    Transition(card.(isDeleting := true), [Call(Delete(card.creator.id))])
  }

  /**
    The rest of `handleDelete`: whatever the outcome, `finally` clears
    `isDeleting` and hides the modal; success reloads the page, a returned or
    thrown error alerts.
   */
  function FinishDelete(card: Card, o: Ack): (t: Transition<Card>)
    ensures t.state == Card(card.creator, false, false)
    ensures o.Ok? <==> t.out == [Reload]
    ensures !o.Ok? ==> Alert(DeleteAlert) in t.out && Reload !in t.out
    ensures NoCalls(t.out)
  {
    Transition(Card(card.creator, false, false), Settle(o, Reload, DeleteErrorLog, DeleteAlert))
  }

  /** The confirmation modal as rendered: the two buttons and the confirm button's caption. */
  datatype Modal = Modal(cancelEnabled: bool, confirmEnabled: bool, confirmCaption: string)

  /** What a card shows. */
  datatype CardView = CardView(
    title: string,
    platform: string,
    icon: string,
    visit: string,
    image: Option<string>,
    detailLink: string,
    modal: Option<Modal>)

  /** The card's render. */
  function Render(card: Card): (v: CardView)
    ensures v.modal.Some? <==> card.showDeleteModal
    // while a delete is in flight neither modal button can be pressed
    ensures v.modal.Some? ==>
      (v.modal.value.cancelEnabled <==> !card.isDeleting) &&
      (v.modal.value.confirmEnabled <==> !card.isDeleting)
    // the title and the visit link are the creator's own name and URL
    ensures v.title == card.creator.fields.name && v.visit == card.creator.fields.url
    // the "Visit …" label names the platform the URL classifies as, and the icon is that platform's
    ensures v.platform == Platform.Label(Platform.SocialPlatform(card.creator.fields.url))
    ensures v.icon == Platform.SocialIcon(v.platform)
    ensures v.icon == Platform.LinkIcon <==> Platform.SocialPlatform(card.creator.fields.url) == Platform.Website
    ensures v.modal.Some? ==>
      v.modal.value.confirmCaption == (if card.isDeleting then "DELETING..." else "YES! TOTALLY SURE")
    ensures v.image.Some? <==> card.creator.fields.imageURL != ""
    ensures v.detailLink == DetailPath(card.creator.id)
  {
    var d := card.creator.fields;
    var p := Platform.SocialPlatform(d.url);
    Platform.CardIconIsLinkIffWebsite(d.url);
    CardView(
      d.name,
      Platform.Label(p),
      Platform.SocialIcon(Platform.Label(p)),
      d.url,
      ImageOf(d),
      DetailPath(card.creator.id),
      if card.showDeleteModal then
        Some(Modal(!card.isDeleting, !card.isDeleting,
                   if card.isDeleting then "DELETING..." else "YES! TOTALLY SURE"))
      else None)
  }

  /** What can happen to a card: a click on one of its controls, or the delete call settling. */
  datatype Event =
    | ClickView          // the info button
    | ClickEdit          // the pencil button
    | ClickCancel        // "NAH, NEVER MIND" in the modal
    | ClickConfirm       // "YES! TOTALLY SURE" in the modal
    | DeleteSettled(outcome: Ack)

  /**
    One event. A click reaches its handler only when its button is rendered
    and enabled; the delete call can only settle while it is in flight.
   */
  function Step(card: Card, e: Event): (t: Transition<Card>)
    ensures e.ClickView? ==> t == Transition(card, [Navigate(DetailPath(card.creator.id))])
    ensures e.ClickEdit? ==> t == Transition(card, [Navigate(EditPath(card.creator.id))])
    // a backend delete is only ever issued from the confirm button of a shown, idle modal
    ensures (exists i :: 0 <= i < |t.out| && t.out[i].Call?) ==>
      e.ClickConfirm? && card.showDeleteModal && !card.isDeleting
    // both modal buttons are inert while a delete is in flight
    ensures (e.ClickCancel? || e.ClickConfirm?) && card.isDeleting ==> t == Transition(card, [])
    ensures (e.ClickCancel? || e.ClickConfirm?) && !card.showDeleteModal ==> t == Transition(card, [])
    ensures e.ClickCancel? && card.showDeleteModal && !card.isDeleting ==>
      t == Transition(card.(showDeleteModal := false), [])
    ensures e.ClickConfirm? && card.showDeleteModal && !card.isDeleting ==> t == BeginDelete(card)
    ensures e.DeleteSettled? && card.isDeleting ==> t == FinishDelete(card, e.outcome)
    ensures e.DeleteSettled? && !card.isDeleting ==> t == Transition(card, [])
    ensures t.state.creator == card.creator
  {
    var enabled := card.showDeleteModal && !card.isDeleting;
    match e
    case ClickView => Transition(card, [Navigate(DetailPath(card.creator.id))])
    case ClickEdit => Transition(card, [Navigate(EditPath(card.creator.id))])
    case ClickCancel => if enabled then Transition(card.(showDeleteModal := false), []) else Ignore(card)
    case ClickConfirm => if enabled then BeginDelete(card) else Ignore(card)
    case DeleteSettled(o) => if card.isDeleting then FinishDelete(card, o) else Ignore(card)
  }

  /** A card at rest: modal hidden and no delete in flight. */
  predicate Quiet(card: Card)
  {
    !card.showDeleteModal && !card.isDeleting
  }

  /**
    From a quiet card, no sequence of events ever shows the modal, starts a
    delete or issues any backend call: `handleDelete` is unreachable.
   */
  lemma {:induction false} QuietForever(card: Card, es: seq<Event>)
    requires Quiet(card)
    ensures Quiet(Run(Step, card, es).state)
    ensures Run(Step, card, es).state.creator == card.creator
    ensures NoCalls(Run(Step, card, es).out)
    decreases |es|
  {
    if |es| > 0 {
      var first := Step(card, es[0]);
      QuietForever(first.state, es[1..]);
      var rest := Run(Step, first.state, es[1..]);
      assert Run(Step, card, es).out == first.out + rest.out;
      assert NoCalls(first.out);
    }
  }

  /** Every card mounts quiet, so no card ever deletes its creator. */
  lemma MountedCardNeverDeletes(c: Creator, es: seq<Event>)
    ensures !Render(Run(Step, Mount(c), es).state).modal.Some?
    ensures NoCalls(Run(Step, Mount(c), es).out)
  {
  }

  /**
    Were the modal shown, confirming would issue exactly one delete for this
    card, and the card would come back to rest whatever the call's outcome.
   */
  lemma ConfirmThenSettle(card: Card, o: Ack)
    requires card.showDeleteModal && !card.isDeleting
    ensures Run(Step, card, [ClickConfirm, DeleteSettled(o)]).out[0] == Call(Delete(card.creator.id))
    ensures NoCalls(Run(Step, card, [ClickConfirm, DeleteSettled(o)]).out[1..])
    ensures Quiet(Run(Step, card, [ClickConfirm, DeleteSettled(o)]).state)
  {
  }
}

=== FILE: edit_creator.dfy ===
/**
  The edit page for the creator named by the route's `id`: it fetches the row,
  seeds the form with it, saves the whole form back with an update, and offers
  a confirm-gated delete. `loading` covers the initial fetch (only
  "Loading..." is rendered meanwhile); `saving` covers an update in flight.
 */
module EditCreator {
  import opened Outcomes
  import opened Records
  import opened Commands
  import ConfirmedDelete

  datatype EditState = EditState(routeId: Id, form: FormData, loading: bool, saving: bool)

  /** The page as mounted for route `id`: an empty form, the fetch of the row under way. */
  function Mount(id: Id): (t: Transition<EditState>)
    ensures t.state.routeId == id
    ensures t.state.form == FormData(None, EmptyDraft)
    ensures t.state.loading && !t.state.saving
    ensures t.out == [Call(GetOne(id))]
  {
    Transition(EditState(id, FormData(None, EmptyDraft), true, false), [Call(GetOne(id))])
  }

  const LoadErrorLog := "Error loading creator:"

  /** The copy of a fetched row that `setFormData(data)` stores: every column, `id` included. */
  function FromRow(c: Creator): (f: FormData)
    ensures f.id == Some(c.id) && f.fields == c.fields
  {
    FormData(Some(c.id), c.fields)
  }

  /**
    The fetch settling. A clean result with a row replaces the form with that
    row; a returned error or a missing row logs and keeps the form. Either way
    `loading` drops. The fetch is not wrapped in `try`: a thrown error ends
    the effect before `setLoading(false)`, and the page stays on "Loading...".
   */
  function Loaded(s: EditState, o: Outcome<Option<Creator>>): (t: Transition<EditState>)
    ensures o.Ok? && o.data.Some? ==> t == Transition(s.(form := FromRow(o.data.value), loading := false), [])
    ensures o.Err? || (o.Ok? && o.data.None?) ==>
      t == Transition(s.(loading := false), [Log(LoadErrorLog)])
    ensures o.Throw? ==> t == Transition(s, [])
  {
    match o
    case Ok(Some(c)) => Transition(s.(form := FromRow(c), loading := false), [])
    case Ok(None) => Transition(s.(loading := false), [Log(LoadErrorLog)])
    case Err => Transition(s.(loading := false), [Log(LoadErrorLog)])
    case Throw => Transition(s, [])
  }

  /** `handleChange`: the input named `f` now holds `v`; nothing else changes. */
  function Change(s: EditState, f: Field, v: string): (r: EditState)
    ensures Get(r.form.fields, f) == v
    ensures forall g :: g != f ==> Get(r.form.fields, g) == Get(s.form.fields, g)
    ensures r.form.id == s.form.id && r.routeId == s.routeId
    ensures r.loading == s.loading && r.saving == s.saving
  {
    s.(form := s.form.(fields := With(s.form.fields, f, v)))
  }

  /** `handleSubmit` up to its `await`: raise `saving` and send the whole form as the update for the route's id. */
  function BeginSave(s: EditState): (t: Transition<EditState>)
    ensures t.state == s.(saving := true)
    ensures t.out == [Call(Update(s.form, s.routeId))]
  {
    Transition(s.(saving := true), [Call(Update(s.form, s.routeId))])
  }

  const UpdateErrorLog := "Error updating creator:"
  const UpdateAlert := "Error updating creator. Please try again."

  /**
    The rest of `handleSubmit`: `finally` drops `saving` on every outcome and
    the form is kept; success opens the detail route, an error alerts.
   */
  function FinishSave(s: EditState, o: Ack): (t: Transition<EditState>)
    ensures t.state == s.(saving := false)
    ensures o.Ok? <==> t.out == [Navigate(DetailPath(s.routeId))]
    ensures !o.Ok? ==> Alert(UpdateAlert) in t.out && Navigate(DetailPath(s.routeId)) !in t.out
    ensures NoCalls(t.out)
  {
    Transition(s.(saving := false), Settle(o, Navigate(DetailPath(s.routeId)), UpdateErrorLog, UpdateAlert))
  }

  datatype EditView =
    | Loading
    | Form(fields: Draft, backLink: string, submitEnabled: bool, submitCaption: string)

  /** The render: "Loading..." alone until the fetch settles, then the form. */
  function Render(s: EditState): (v: EditView)
    ensures v.Loading? <==> s.loading
    ensures v.Form? ==> v.fields == s.form.fields && (v.submitEnabled <==> !s.saving)
    ensures v.Form? ==> v.backLink == DetailPath(s.routeId)
    ensures v.Form? ==> v.submitCaption == (if s.saving then "Saving..." else "Save Changes")
  {
    if s.loading then Loading
    else Form(s.form.fields, DetailPath(s.routeId), !s.saving, if s.saving then "Saving..." else "Save Changes")
  }

  datatype Event =
    | LoadSettled(row: Outcome<Option<Creator>>)
    | Input(field: Field, value: string)
    | Submit
    | ClickDelete(confirmed: bool)            // the answer `window.confirm` gave
    | UpdateSettled(outcome: Ack)
    | DeleteSettled(outcome: Ack)

  /**
    One event. While loading no control is rendered, so only the fetch can
    settle. Afterwards typing always reaches `handleChange`; a submit needs
    the button enabled and the required fields filled; the delete button has
    no guard. Each awaited call settles only while the page awaits it, except
    deletes, which the page does not track.
   */
  function Step(s: EditState, e: Event): (t: Transition<EditState>)
    ensures s.loading && (e.Input? || e.Submit? || e.ClickDelete?) ==> t == Transition(s, [])
    // the disabled button and the required-field check swallow a submit
    ensures e.Submit? && (s.loading || s.saving || !Submittable(s.form.fields)) ==> t == Transition(s, [])
    ensures e.Submit? && !s.loading && !s.saving && Submittable(s.form.fields) ==> t == BeginSave(s)
    ensures e.Input? && !s.loading ==> t == Transition(Change(s, e.field, e.value), [])
    ensures e.LoadSettled? && s.loading ==> t == Loaded(s, e.row)
    ensures e.UpdateSettled? && s.saving ==> t == FinishSave(s, e.outcome)
    ensures (e.LoadSettled? && !s.loading) || (e.UpdateSettled? && !s.saving) ==> t == Transition(s, [])
    ensures e.ClickDelete? && !s.loading ==> t == Transition(s, ConfirmedDelete.Request(s.routeId, e.confirmed))
    ensures e.DeleteSettled? ==> t == Transition(s, ConfirmedDelete.Settled(e.outcome))
    ensures t.state.routeId == s.routeId
  {
    match e
    case LoadSettled(o) => if s.loading then Loaded(s, o) else Ignore(s)
    case Input(f, v) => if s.loading then Ignore(s) else Transition(Change(s, f, v), [])
    case Submit =>
      if !s.loading && !s.saving && Submittable(s.form.fields) then BeginSave(s) else Ignore(s)
    case ClickDelete(yes) =>
      if s.loading then Ignore(s) else Transition(s, ConfirmedDelete.Request(s.routeId, yes))
    case UpdateSettled(o) => if s.saving then FinishSave(s, o) else Ignore(s)
    case DeleteSettled(o) => Transition(s, ConfirmedDelete.Settled(o))
  }

  /** Every backend call is an update or a delete for the route's own id. */
  predicate CallsTarget(out: seq<Command>, id: Id)
  {
    forall i :: 0 <= i < |out| && out[i].Call? ==>
      (out[i].request.Update? && out[i].request.target == id) ||
      (out[i].request.Delete? && out[i].request.target == id)
  }

  /** A save is in flight only once the fetch has settled. */
  predicate Consistent(s: EditState)
  {
    s.saving ==> !s.loading
  }

  lemma CallsTargetAppend(a: seq<Command>, b: seq<Command>, id: Id)
    requires CallsTarget(a, id) && CallsTarget(b, id)
    ensures CallsTarget(a + b, id)
  {
  }

  /**
    From any state with no save in flight during the fetch (the mounted page
    is one), whatever happens, that stays so, and every update or delete the
    page issues targets the route's id.
   */
  lemma {:induction false} StaysOnRoute(s: EditState, es: seq<Event>)
    requires Consistent(s)
    ensures Consistent(Run(Step, s, es).state)
    ensures Run(Step, s, es).state.routeId == s.routeId
    ensures CallsTarget(Run(Step, s, es).out, s.routeId)
    decreases |es|
  {
    if |es| > 0 {
      var first := Step(s, es[0]);
      StaysOnRoute(first.state, es[1..]);
      assert CallsTarget(first.out, s.routeId);
      CallsTargetAppend(first.out, Run(Step, first.state, es[1..]).out, s.routeId);
    }
  }

  /** A second submit while the update is in flight does nothing: one update goes out. */
  lemma DoubleSaveIgnored(s: EditState)
    requires !s.loading && !s.saving && Submittable(s.form.fields)
    ensures Run(Step, s, [Submit, Submit]) == Transition(s.(saving := true), [Call(Update(s.form, s.routeId))])
  {
  }

  /** Declining the confirmation changes nothing and calls nothing. */
  lemma DeclinedDeleteIsNoop(s: EditState)
    ensures Step(s, ClickDelete(false)) == Transition(s, [])
  {
  }

  /** Accepting it, once loaded, issues exactly the delete of the route's row and changes no state. */
  lemma ConfirmedDeleteIssuesOne(s: EditState)
    requires !s.loading
    ensures Step(s, ClickDelete(true)) == Transition(s, [Call(Delete(s.routeId))])
  {
  }

  /** With no in-flight guard, a second confirmed click issues a second delete. */
  lemma DeleteHasNoInFlightGuard(s: EditState)
    requires !s.loading
    ensures Run(Step, s, [ClickDelete(true), ClickDelete(true)]).out
      == [Call(Delete(s.routeId)), Call(Delete(s.routeId))]
  {
  }

  /** A fetched row, loaded then saved untouched, is sent back whole, its id included. */
  lemma SaveSendsLoadedRow(id: Id, c: Creator)
    requires Submittable(c.fields)
    ensures Run(Step, Mount(id).state, [LoadSettled(Ok(Some(c))), Submit]).out
      == [Call(Update(FormData(Some(c.id), c.fields), id))]
  {
  }

  /**
    A failed save, returned or thrown, keeps the form as the user left it and
    re-enables the button.
   */
  lemma FailedSaveKeepsForm(s: EditState, o: Ack)
    requires !s.loading && !s.saving && Submittable(s.form.fields) && !o.Ok?
    ensures Run(Step, s, [Submit, UpdateSettled(o)]).state == s
    ensures Alert(UpdateAlert) in Run(Step, s, [Submit, UpdateSettled(o)]).out
    ensures Navigate(DetailPath(s.routeId)) !in Run(Step, s, [Submit, UpdateSettled(o)]).out
  {
  }

  /** A clean update issues the one update and then opens the route's detail page. */
  lemma SuccessfulSaveOpensDetail(s: EditState)
    requires !s.loading && !s.saving && Submittable(s.form.fields)
    ensures Run(Step, s, [Submit, UpdateSettled(Ok(()))])
      == Transition(s, [Call(Update(s.form, s.routeId)), Navigate(DetailPath(s.routeId))])
  {
  }

  /** A fetch that returns an error still ends the loading state: the form shows, with its empty draft. */
  lemma FailedLoadShowsForm(id: Id)
    ensures Render(Run(Step, Mount(id).state, [LoadSettled(Err)]).state)
      == Form(EmptyDraft, DetailPath(id), true, "Save Changes")
    ensures Run(Step, Mount(id).state, [LoadSettled(Err)]).out == [Log(LoadErrorLog)]
  {
  }

  /**
    A fetch that throws leaves the page on "Loading..." for good: whatever the
    user tries, no input ever reaches the form.
   */
  lemma {:induction false} ThrownLoadStaysLoading(s: EditState, es: seq<Event>)
    requires s.loading && !s.saving
    requires forall i :: 0 <= i < |es| && es[i].LoadSettled? ==> es[i].row.Throw?
    ensures Run(Step, s, es).state == s
    ensures Render(Run(Step, s, es).state).Loading?
    decreases |es|
  {
    if |es| > 0 {
      ThrownLoadStaysLoading(Step(s, es[0]).state, es[1..]);
    }
  }
}

=== FILE: outcomes.dfy ===
/**
  What a backend call can come back with, seen from the page that awaited it.

  Every call into the remote `creators` table is abstracted to one of three
  outcomes: the call resolved with no `error` (carrying its `data`), it
  resolved with a non-null `error`, or the awaited promise rejected.
 */
module Outcomes {

  /** JavaScript's `null`-or-value, as the pages see `data` and `creator`. */
  datatype Option<+T> = None | Some(value: T) {

    /** `data || fallback` for an optional value. */
    function GetOr(fallback: T): (r: T)
      ensures Some? ==> r == value
      ensures None? ==> r == fallback
    {
      match this
      case Some(v) => v
      case None => fallback
    }
  }

  /** The three ways an awaited backend call can end. */
  datatype Outcome<+T> =
    | Ok(data: T)   // resolved, `error` is null
    | Err           // resolved, `error` is set
    | Throw         // the awaited promise rejected

  /** Outcome of a mutation (insert, update, delete): its `data` is never read. */
  type Ack = Outcome<()>
}

=== FILE: platform.dfy ===
/**
  The card's guess at which social platform a creator's link points to, and
  the icon shown for it. The guess is an ordered list of plain, case-sensitive
  substring tests on the whole URL text: the first platform with a marker in
  the URL wins, and a URL with no marker is a plain website. Because the tests
  look at the whole text, `https://netflix.com` contains `x.com` and is taken
  for Twitter.
 */
module Platform {
  import opened Text

  datatype Platform = YouTube | Twitter | Instagram | TikTok | Website

  /** The label the classifier returns, also shown as "Visit <label>". */
  function Label(p: Platform): string
  {
    match p
    case YouTube => "YouTube"
    case Twitter => "Twitter"
    case Instagram => "Instagram"
    case TikTok => "TikTok"
    case Website => "Website"
  }

  /** Position of a platform in the order the tests are tried. */
  function Rank(p: Platform): nat
  {
    match p
    case YouTube => 0
    case Twitter => 1
    case Instagram => 2
    case TikTok => 3
    case Website => 4
  }

  /** The substrings that identify a platform (a website has none). */
  function Markers(p: Platform): seq<string>
  {
    match p
    case YouTube => ["youtube.com", "youtu.be"]
    case Twitter => ["twitter.com", "x.com"]
    case Instagram => ["instagram.com"]
    case TikTok => ["tiktok.com"]
    case Website => []
  }

  /** Some marker of `p` occurs in `url`. */
  predicate Marked(url: string, p: Platform)
  {
    exists i :: 0 <= i < |Markers(p)| && Includes(url, Markers(p)[i])
  }

  /** `getSocialPlatform(url)`. */
  function SocialPlatform(url: string): (r: Platform)
    // the winner is marked, and no platform tried before it is
    ensures r != Website ==> Marked(url, r)
    ensures forall q :: Rank(q) < Rank(r) ==> !Marked(url, q)
  {
    if Includes(url, "youtube.com") || Includes(url, "youtu.be") then
      assert Includes(url, Markers(YouTube)[0]) || Includes(url, Markers(YouTube)[1]);
      YouTube
    else if Includes(url, "twitter.com") || Includes(url, "x.com") then
      assert Includes(url, Markers(Twitter)[0]) || Includes(url, Markers(Twitter)[1]);
      Twitter
    else if Includes(url, "instagram.com") then
      assert Includes(url, Markers(Instagram)[0]);
      Instagram
    else if Includes(url, "tiktok.com") then
      assert Includes(url, Markers(TikTok)[0]);
      TikTok
    else
      Website
  }

  /** A URL is classified as exactly the first marked platform in test order. */
  lemma ClassifiedIffFirstMarked(url: string, p: Platform)
    ensures SocialPlatform(url) == p <==>
      (p == Website || Marked(url, p)) && forall q :: Rank(q) < Rank(p) ==> !Marked(url, q)
  {
  }

  /** `Website` exactly when none of the six markers occurs anywhere in the URL. */
  lemma WebsiteIffUnmarked(url: string)
    ensures SocialPlatform(url) == Website <==>
      !Includes(url, "youtube.com") && !Includes(url, "youtu.be") &&
      !Includes(url, "twitter.com") && !Includes(url, "x.com") &&
      !Includes(url, "instagram.com") && !Includes(url, "tiktok.com")
  {
  }

  /** A YouTube marker wins whatever other markers surround it. */
  lemma YouTubeMarkerWins(before: string, marker: string, after: string)
    requires marker in Markers(YouTube)
    ensures SocialPlatform(before + marker + after) == YouTube
  {
    IncludesPlaced(before, marker, after);
  }

  /** Twitter is returned exactly when there is no YouTube marker and a Twitter marker occurs. */
  lemma TwitterIff(url: string)
    ensures SocialPlatform(url) == Twitter <==>
      !Marked(url, YouTube) && (Includes(url, "twitter.com") || Includes(url, "x.com"))
  {
  }

  /** Instagram and TikTok are only chosen when every earlier platform is unmarked. */
  lemma LaterPlatformsNeedEarlierUnmarked(url: string)
    ensures SocialPlatform(url) == Instagram ==> !Marked(url, YouTube) && !Marked(url, Twitter)
    ensures SocialPlatform(url) == TikTok ==>
      !Marked(url, YouTube) && !Marked(url, Twitter) && !Marked(url, Instagram)
  {
  }

  /** A URL with no letter `y` and an `x.com` in it is taken for Twitter. */
  lemma TwitterWithoutY(url: string)
    requires 'y' !in url && Includes(url, "x.com")
    ensures SocialPlatform(url) == Twitter
  {
    MissingCharExcludes(url, "youtube.com", 'y');
    MissingCharExcludes(url, "youtu.be", 'y');
  }

  /** Plain substring matching: a streaming site whose host ends in `x.com` counts as Twitter. */
  lemma NetflixIsTwitter()
    ensures SocialPlatform("https://netflix.com") == Twitter
  {
    var head := "https://netfli";
    IncludesPlaced(head, "x.com", "");
    assert head + "x.com" + "" == "https://netflix.com";
    TwitterWithoutY("https://netflix.com");
  }

  /** Adding text to a URL can only move its platform earlier in test order, never later. */
  lemma ExtendingNeverDemotes(before: string, url: string, after: string)
    ensures Rank(SocialPlatform(before + url + after)) <= Rank(SocialPlatform(url))
  {
    var p := SocialPlatform(url);
    if p != Website {
      var i :| 0 <= i < |Markers(p)| && Includes(url, Markers(p)[i]);
      IncludesInContext(before, url, after, Markers(p)[i]);
      assert Marked(before + url + after, p);
    }
  }

  const LinkIcon := "\U{1F517}"

  /** The four platform labels that have an icon of their own. */
  const NamedLabels: set<string> := {"YouTube", "Twitter", "Instagram", "TikTok"}

  /** `getSocialIcon(platform)`: total on every string, with a default icon. */
  function SocialIcon(platform: string): (r: string)
    ensures platform !in NamedLabels <==> r == LinkIcon
  {
    match platform
    case "YouTube" => "\U{1F4FA}"
    case "Twitter" => "\U{1F426}"
    case "Instagram" => "\U{1F4F7}"
    case "TikTok" => "\U{1F3B5}"
    case _ => LinkIcon
  }

  /** Each named platform gets an icon no other label shares. */
  lemma NamedIconsDistinct(a: string, b: string)
    requires a in NamedLabels && SocialIcon(a) == SocialIcon(b)
    ensures a == b
  {
  }

  /** The icon on a card: the link icon exactly when the URL names no platform. */
  lemma CardIconIsLinkIffWebsite(url: string)
    ensures SocialIcon(Label(SocialPlatform(url))) == LinkIcon <==> SocialPlatform(url) == Website
  {
  }
}

=== FILE: records.dfy ===
/**
  The one entity of the application: a content creator, as a row of the
  `creators` table and as the object the create and edit forms hold.
 */
module Records {
  import opened Outcomes

  /** A row id, in the textual form it has in routes and `.eq('id', …)` filters. */
  type Id = string

  /** The four columns a form edits; also the `name` attributes of its inputs. */
  datatype Field = Name | Url | Description | ImageUrl

  /** The editable columns of a creator. An empty `imageURL` means "no image". */
  datatype Draft = Draft(name: string, url: string, description: string, imageURL: string)

  /** A row read back from the table: the backend assigns `id`. */
  datatype Creator = Creator(id: Id, fields: Draft)

  /**
    The object a form keeps in `formData`: the four columns, plus the `id`
    column when the object was copied from a fetched row.
   */
  datatype FormData = FormData(id: Option<Id>, fields: Draft)

  /** The value of one column of a draft. */
  function Get(d: Draft, f: Field): string
  {
    match f
    case Name => d.name
    case Url => d.url
    case Description => d.description
    case ImageUrl => d.imageURL
  }

  /** `{ ...prev, [name]: value }`: the draft with column `f` set to `v`. */
  function With(d: Draft, f: Field, v: string): (r: Draft)
    ensures Get(r, f) == v
    ensures forall g :: g != f ==> Get(r, g) == Get(d, g)
  {
    match f
    case Name => d.(name := v)
    case Url => d.(url := v)
    case Description => d.(description := v)
    case ImageUrl => d.(imageURL := v)
  }

  /** Writing back a column's own value changes nothing. */
  lemma WithOwnValue(d: Draft, f: Field)
    ensures With(d, f, Get(d, f)) == d
  {
  }

  /** A later change of the same column overwrites an earlier one. */
  lemma WithOverwrites(d: Draft, f: Field, v: string, w: string)
    ensures With(With(d, f, v), f, w) == With(d, f, w)
  {
  }

  /** Changes to two different columns commute. */
  lemma WithCommutes(d: Draft, f: Field, v: string, g: Field, w: string)
    requires f != g
    ensures With(With(d, f, v), g, w) == With(With(d, g, w), f, v)
  {
  }

  /** The initial `formData` of both forms: every column empty. */
  const EmptyDraft := Draft("", "", "", "")

  /** A column whose input carries the `required` attribute. */
  predicate Required(f: Field)
  {
    f != ImageUrl
  }

  /**
    The browser's required-field constraint: the form's submit event fires only
    when `name`, `url` and `description` are all non-empty.
   */
  predicate Submittable(d: Draft)
  {
    d.name != "" && d.url != "" && d.description != ""
  }

  /** Submittable means: every required column is non-empty, whatever the optional one holds. */
  lemma SubmittableIffRequiredFilled(d: Draft)
    ensures Submittable(d) <==> forall f :: Required(f) ==> Get(d, f) != ""
  {
    if forall f :: Required(f) ==> Get(d, f) != "" {
      assert Get(d, Name) != "" && Get(d, Url) != "" && Get(d, Description) != "";
    }
  }

  /** The optional image column never decides whether a draft can be submitted. */
  lemma ImageUrlIsOptional(d: Draft, v: string)
    ensures Submittable(With(d, ImageUrl, v)) == Submittable(d)
  {
  }

  /** A fresh form cannot be submitted: each required column must be filled in first. */
  lemma EmptyDraftNotSubmittable(f: Field, v: string)
    requires Required(f)
    ensures !Submittable(With(EmptyDraft, f, v))
  {
  }

  /** `{imageURL && <img …/>}`: the image is shown exactly when the column is non-empty. */
  function ImageOf(d: Draft): (r: Option<string>)
    ensures r.Some? <==> d.imageURL != ""
    ensures r.Some? ==> r.value == d.imageURL
  {
    if d.imageURL != "" then Some(d.imageURL) else None
  }
}

=== FILE: show_creators.dfy ===
/**
  The home page: fetches every creator, in ascending id order, and renders
  either a loading message, an empty-state message, or one card per creator
  in the order the fetch returned them.
 */
module ShowCreators {
  import opened Outcomes
  import opened Records
  import opened Commands
  import CreatorCard

  datatype ListState = ListState(creators: seq<Creator>, loading: bool)

  /** The page as mounted: no creators, loading, the fetch of every row under way. */
  function Mount(): (t: Transition<ListState>)
    ensures |t.state.creators| == 0 && t.state.loading
    ensures t.out == [Call(ListAll)]
  {
    Transition(ListState([], true), [Call(ListAll)])
  }

  /**
    The fetch settling: a clean result stores `data`, or an empty list when it
    is null; a returned error keeps the list. Both drop `loading`. The fetch is
    not wrapped in `try`: a thrown error ends the effect with nothing changed.
   */
  function Loaded(s: ListState, o: Outcome<Option<seq<Creator>>>): (r: ListState)
    ensures o.Ok? && o.data.Some? ==> r.creators == o.data.value
    ensures o.Ok? && o.data.None? ==> |r.creators| == 0
    ensures !o.Ok? ==> r.creators == s.creators
    ensures !o.Throw? ==> !r.loading
    ensures o.Throw? ==> r == s
  {
    match o
    case Ok(d) => ListState(d.GetOr([]), false)
    case Err => s.(loading := false)
    case Throw => s
  }

  datatype ListView =
    | LoadingList                                   // "Loading creators..."
    | EmptyList                                     // "No creators yet"
    | Grid(cards: seq<CreatorCard.Card>, keys: seq<Id>)

  /** The render, once the hero is set aside. */
  function Render(s: ListState): (v: ListView)
    ensures v.LoadingList? <==> s.loading
    ensures v.EmptyList? <==> !s.loading && |s.creators| == 0
    // one card per creator, in order, each freshly mounted and keyed by its id
    ensures v.Grid? ==> |v.cards| == |s.creators| && |v.keys| == |s.creators|
    ensures v.Grid? ==> forall i :: 0 <= i < |v.cards| ==>
      v.cards[i] == CreatorCard.Mount(s.creators[i]) && v.keys[i] == s.creators[i].id
  {
    if s.loading then LoadingList
    else if |s.creators| == 0 then EmptyList
    else Grid(seq(|s.creators|, i requires 0 <= i < |s.creators| => CreatorCard.Mount(s.creators[i])),
              seq(|s.creators|, i requires 0 <= i < |s.creators| => s.creators[i].id))
  }

  /**
    The page's one event of its own: the fetch settling. Clicks on the cards
    belong to `CreatorCard.Step`. The fetch is issued once, on mount, so a
    completion takes effect only while the page is loading.
   */
  datatype Event = LoadSettled(rows: Outcome<Option<seq<Creator>>>)

  function Step(s: ListState, e: Event): (t: Transition<ListState>)
    ensures s.loading ==> t == Transition(Loaded(s, e.rows), [])
    ensures !s.loading ==> t == Transition(s, [])
  {
    if s.loading then Transition(Loaded(s, e.rows), []) else Ignore(s)
  }

  /** Once a returned fetch has been applied, a further completion changes nothing. */
  lemma SettlesOnce(o: Outcome<Option<seq<Creator>>>, later: Outcome<Option<seq<Creator>>>)
    requires !o.Throw?
    ensures Run(Step, Mount().state, [LoadSettled(o), LoadSettled(later)])
      == Transition(Loaded(Mount().state, o), [])
  {
  }

  /** Distinct ids, as the table's primary key guarantees, give distinct card keys. */
  lemma KeysUnique(s: ListState)
    requires forall i, j :: 0 <= i < j < |s.creators| ==> s.creators[i].id != s.creators[j].id
    ensures Render(s).Grid? ==> forall i, j :: 0 <= i < j < |Render(s).keys| ==> Render(s).keys[i] != Render(s).keys[j]
  {
  }

  /** Whatever a returned fetch holds, the page leaves the loading state, with cards exactly when rows came back. */
  lemma ReturnedFetchRenders(o: Outcome<Option<seq<Creator>>>)
    requires !o.Throw?
    ensures !Render(Loaded(Mount().state, o)).LoadingList?
    ensures Render(Loaded(Mount().state, o)).EmptyList? <==> !(o.Ok? && o.data.Some? && |o.data.value| > 0)
  {
  }

  /** A fetch that throws leaves the page on "Loading creators..." for good. */
  lemma ThrownFetchStaysLoading()
    ensures Render(Loaded(Mount().state, Throw)).LoadingList?
  {
  }

  /** The empty table shows the empty-state message, not an error. */
  lemma EmptyTableShowsEmptyState()
    ensures Render(Loaded(Mount().state, Ok(Some([])))) == EmptyList
  {
  }
}

=== FILE: text.dfy ===
/**
  Plain, case-sensitive substring search: JavaScript's `String.prototype.includes`
  on the strings the application handles.
 */
module Text {

  /** `p` is a prefix of `s`. */
  predicate IsPrefix(p: string, s: string)
  {
    |p| <= |s| && s[..|p|] == p
  }

  /** `s.includes(p)`: scan `s` from the left for a position where `p` starts. */
  predicate Includes(s: string, p: string)
    decreases |s|
  {
    IsPrefix(p, s) || (|s| > 0 && Includes(s[1..], p))
  }

  /** Reference definition: `p` occurs in `s` starting at index `i`. */
  ghost predicate OccursAt(s: string, p: string, i: int)
  {
    0 <= i && i + |p| <= |s| && s[i..i + |p|] == p
  }

  /** The scan finds `p` exactly when `p` occurs somewhere in `s`. */
  lemma {:induction false} IncludesIffOccurs(s: string, p: string)
    ensures Includes(s, p) <==> exists i :: OccursAt(s, p, i)
    decreases |s|
  {
    if IsPrefix(p, s) {
      assert OccursAt(s, p, 0);
    } else if |s| == 0 {
    } else {
      IncludesIffOccurs(s[1..], p);
      if Includes(s[1..], p) {
        var j :| OccursAt(s[1..], p, j);
        assert s[j + 1..j + 1 + |p|] == s[1..][j..j + |p|];
        assert OccursAt(s, p, j + 1);
      }
      if exists i :: OccursAt(s, p, i) {
        var i :| OccursAt(s, p, i);
        assert s[1..][i - 1..i - 1 + |p|] == s[i..i + |p|];
        assert OccursAt(s[1..], p, i - 1);
      }
    }
  }

  /** Text put around a string never hides a substring it already had. */
  lemma IncludesInContext(a: string, s: string, b: string, p: string)
    requires Includes(s, p)
    ensures Includes(a + s + b, p)
  {
    IncludesIffOccurs(s, p);
    var i :| OccursAt(s, p, i);
    var t := a + s + b;
    assert t[|a| + i..|a| + i + |p|] == s[i..i + |p|];
    assert OccursAt(t, p, |a| + i);
    IncludesIffOccurs(t, p);
  }

  /** Every string contains itself, wherever it is placed. */
  lemma IncludesPlaced(a: string, p: string, b: string)
    ensures Includes(a + p + b, p)
  {
    assert p[..|p|] == p;
    assert Includes(p, p);
    IncludesInContext(a, p, b, p);
  }

  /** A string cannot contain a pattern that has a character it lacks. */
  lemma {:induction false} MissingCharExcludes(s: string, p: string, c: char)
    requires c in p && c !in s
    ensures !Includes(s, p)
    decreases |s|
  {
    if |s| > 0 {
      assert forall k :: 0 <= k < |s[1..]| ==> s[1..][k] == s[k + 1];
      MissingCharExcludes(s[1..], p, c);
    }
  }
}

=== FILE: view_creator.dfy ===
/**
  The detail page for the creator named by the route's `id`. Its only state is
  `creator`, null until the fetch returns; "Loading..." is rendered whenever it
  is null, so a fetch that fails leaves the page loading for good.
 */
module ViewCreator {
  import opened Outcomes
  import opened Records
  import opened Commands
  import ConfirmedDelete

  datatype ViewState = ViewState(routeId: Id, creator: Option<Creator>)

  /** The page as mounted for route `id`: no creator yet, the fetch of the row under way. */
  function Mount(id: Id): (t: Transition<ViewState>)
    ensures t.state.routeId == id && t.state.creator.None?
    ensures t.out == [Call(GetOne(id))]
  {
    Transition(ViewState(id, None), [Call(GetOne(id))])
  }

  /**
    The fetch settling: a clean result stores `data`, even a null one; a
    returned error leaves `creator` alone, and so does a thrown one, which
    ends the effect.
   */
  function Loaded(s: ViewState, o: Outcome<Option<Creator>>): (r: ViewState)
    ensures r.routeId == s.routeId
    ensures o.Ok? ==> r.creator == o.data
    ensures !o.Ok? ==> r == s
  {
    match o
    case Ok(d) => s.(creator := d)
    case _ => s
  }

  datatype Detail = Detail(
    image: Option<string>,
    name: string,
    description: string,
    visit: string,
    editLink: string)

  datatype ViewPage = Loading | Shown(detail: Detail)

  /** The render: "Loading..." while `creator` is null, the record otherwise. */
  function Render(s: ViewState): (v: ViewPage)
    ensures v.Loading? <==> s.creator.None?
    ensures v.Shown? ==> v.detail.editLink == EditPath(s.creator.value.id)
    ensures v.Shown? ==> (v.detail.image.Some? <==> s.creator.value.fields.imageURL != "")
    ensures v.Shown? ==> v.detail.visit == s.creator.value.fields.url
  {
    match s.creator
    case None => Loading
    case Some(c) =>
      Shown(Detail(ImageOf(c.fields), c.fields.name, c.fields.description, c.fields.url, EditPath(c.id)))
  }

  datatype Event =
    | LoadSettled(row: Outcome<Option<Creator>>)
    | ClickDelete(confirmed: bool)            // the answer `window.confirm` gave
    | DeleteSettled(outcome: Ack)

  /**
    One event. The delete button exists only once a creator is shown; it has
    no in-flight guard. The page does not track its calls, so any of them may
    settle at any time.
   */
  function Step(s: ViewState, e: Event): (t: Transition<ViewState>)
    ensures e.ClickDelete? && (s.creator.None? || !e.confirmed) ==> t == Transition(s, [])
    ensures e.ClickDelete? && s.creator.Some? && e.confirmed ==> t == Transition(s, [Call(Delete(s.routeId))])
    ensures e.DeleteSettled? ==> t.state == s && NoCalls(t.out)
    ensures e.LoadSettled? ==> t == Transition(Loaded(s, e.row), [])
  {
    match e
    case LoadSettled(o) => Transition(Loaded(s, o), [])
    case ClickDelete(yes) =>
      if s.creator.None? then Ignore(s) else Transition(s, ConfirmedDelete.Request(s.routeId, yes))
    case DeleteSettled(o) => Transition(s, ConfirmedDelete.Settled(o))
  }

  /** Delete success goes home; an error alerts and leaves the shown creator as it was. */
  lemma DeleteOutcomes(s: ViewState, o: Ack)
    ensures o.Ok? ==> Step(s, DeleteSettled(o)).out == [Navigate(HomePath)]
    ensures !o.Ok? ==> Step(s, DeleteSettled(o)).state == s
    ensures !o.Ok? ==> Alert(ConfirmedDelete.DeleteAlert) in Step(s, DeleteSettled(o)).out
  {
  }

  /**
    Until some fetch comes back clean with a row, the page shows
    "Loading..." and nothing else: no delete can be issued from it.
   */
  lemma {:induction false} LoadingUntilFetched(s: ViewState, es: seq<Event>)
    requires s.creator.None?
    requires forall i :: 0 <= i < |es| && es[i].LoadSettled? ==> !(es[i].row.Ok? && es[i].row.data.Some?)
    ensures Run(Step, s, es).state == s
    ensures Render(Run(Step, s, es).state).Loading?
    ensures NoCalls(Run(Step, s, es).out)
    decreases |es|
  {
    if |es| > 0 {
      var first := Step(s, es[0]);
      LoadingUntilFetched(first.state, es[1..]);
      assert NoCalls(first.out);
      var rest := Run(Step, first.state, es[1..]).out;
      assert forall i :: 0 <= i < |first.out + rest| ==>
        (first.out + rest)[i] == if i < |first.out| then first.out[i] else rest[i - |first.out|];
    }
  }

  /** A clean fetch with a row shows that creator, with its edit link and URL. */
  lemma CleanRowShows(id: Id, c: Creator)
    ensures Run(Step, Mount(id).state, [LoadSettled(Ok(Some(c)))]).state.creator == Some(c)
    ensures Render(Run(Step, Mount(id).state, [LoadSettled(Ok(Some(c)))]).state)
      == Shown(Detail(ImageOf(c.fields), c.fields.name, c.fields.description, c.fields.url, EditPath(c.id)))
  {
  }

  /** A clean fetch with no row also leaves the page loading, just as an error does. */
  lemma NullRowStaysLoading(id: Id)
    ensures Render(Loaded(Mount(id).state, Ok(None))).Loading?
    ensures Render(Loaded(Mount(id).state, Err)).Loading?
  {
  }
}
